=== FILE: README.md ===
# AskPanDA-ATLAS agents: lifecycle, ingestion tick, dummy agent, storage sink

This Dafny project models the sequential core of the `askpanda_atlas_agents`
package:

- **Lifecycle** (`lifecycle.dfy`, from `agents/base.py`). An agent is an
  immutable record holding its name, its `AgentState`, the last-tick,
  last-success and last-error timestamps, and the error string. `start`,
  `tick` and `stop` are pure functions. Each takes the outcome of the
  subclass hook it would call (`Returned` or `Raised(exc)`) and the clock
  readings it would take. Each returns the next record and what the caller
  sees. A caller either sees a normal return or the re-raised exception.
  `health` is a pure projection. The predicates `StartCallsHook`,
  `TickCallsHook` and `StopCallsHook` say whether an operation runs its
  hook at all. A concrete agent runs its own hook only when they hold.
- **Store** (`store.dfy`, from `common/storage/duckdb_store.py`). The
  database is two maps and there is no SQL. One map goes from table name to
  rows in insertion order. The other goes from snapshot id to snapshot
  record and is updated by insert-or-replace. `write_table` and
  `record_snapshot` are functions on this value.
- **Ingestion** (`ingestion.dfy`, from `agents/ingestion_agent/agent.py`).
  The start hook opens the store and the stop hook drops it. The tick hook
  is a recursive fold over the configured sources, all against one `now`.
  Each source is gated by `now - last < interval_s`, where a never-fetched
  source counts as `last = 0`. The fold then fetches, records a snapshot,
  normalises the payload into one row and appends it to `<name>_history`.
  Any per-source failure is absorbed into a failure record.
  - Fetching is an oracle `Location -> Fetch<P>`.
  - A failing write is an oracle giving the message it raises.
  - `uuid4()` becomes consecutive ids from a caller-supplied `firstId`.
- **Dummy agent** (`dummy.dfy`, from `agents/dummy_agent/agent.py`). Its
  start and stop hooks never raise. Its tick hook raises only when the
  work-delay `time.sleep` cannot convert its duration. It keeps a tick
  counter and a stop flag.
  `run_forever` is a method with a loop: start, tick while the flag is
  unset, then stop in every case. An outside `request_stop` is the oracle
  `arrival`.

`wrappers.dfy` holds `Option`, `Result` and a `Contains` predicate on
strings.

Behaviour of the code worth noting, all of which the model follows:

- A clean `stop` keeps an earlier error string, since its success branch
  only sets the state (`agents/base.py:172-175`). A successful `start`
  clears the error string but keeps `last_error_utc`
  (`agents/base.py:133-134`). See `Lifecycle.ErrorSurvivesCleanStop` and
  `Lifecycle.Start`.
- `stop` from NEW runs the hook and ends STOPPED, because only STOPPING and
  STOPPED make it a no-op (`agents/base.py:170-175`, `Lifecycle.Stop`).
- The ok record is written before normalising and writing the rows, so a
  write that raises leaves an ok record and a failure record for the same
  source (`agents/ingestion_agent/agent.py:86-89`,
  `Ingestion.WriteFailureLeavesTwoRecords`).
- Normalising always makes exactly one row
  (`agents/ingestion_agent/agent.py:128`, `Ingestion.Normalize`).

## Model

| member | source | states |
|---|---|---|
| Lifecycle.NewAgent | src/askpanda_atlas_agents/agents/base.py:87-98 | a new agent is NEW with its name, no timestamps and no error |
| Lifecycle.StartCallsHook | src/askpanda_atlas_agents/agents/base.py:128-129 | `start` runs its hook exactly from NEW, STOPPING, STOPPED and FAILED; from RUNNING or STARTING it returns at once |
| Lifecycle.TickCallsHook | src/askpanda_atlas_agents/agents/base.py:149-150 | `tick` runs its hook exactly in RUNNING, a state from which `start` is a no-op and `stop` runs its hook |
| Lifecycle.StopCallsHook | src/askpanda_atlas_agents/agents/base.py:170-171 | `stop` runs its hook exactly from NEW, STARTING, RUNNING and FAILED; from STOPPING or STOPPED it returns at once |
| Lifecycle.Describe | src/askpanda_atlas_agents/agents/base.py:250-258 | the failure text is exactly the exception class name, a colon and a space, then the message |
| Lifecycle.DescribeMentions | tests/agents/test_base_agent.py:143-145 | the recorded failure text contains both the class name and the message |
| Lifecycle.Repr | src/askpanda_atlas_agents/agents/base.py:178 | repr of an exception starts with its class name and a parenthesis and contains its message |
| Lifecycle.StopFailure | src/askpanda_atlas_agents/agents/base.py:176-180 | a stop failure is recorded as "stop() failed: " followed by the exception's repr |
| Lifecycle.NotRunning | src/askpanda_atlas_agents/agents/base.py:149-150 | ticking outside RUNNING raises a RuntimeError whose message contains "not running" |
| Lifecycle.MarkFailed | src/askpanda_atlas_agents/agents/base.py:250-258 | `_mark_failed` sets FAILED, the error time and the described cause, and keeps the tick and success times |
| Lifecycle.Start | src/askpanda_atlas_agents/agents/base.py:118-137 | no-op in RUNNING/STARTING; a returning hook gives RUNNING with the error text cleared and `last_error_utc` kept; a raising hook gives FAILED with error time and "Kind: msg", and the same exception raised |
| Lifecycle.Tick | src/askpanda_atlas_agents/agents/base.py:139-158 | outside RUNNING raises "not running" and changes nothing; in RUNNING sets last tick; a returning hook sets last success, clears the error and stays RUNNING; a raising hook gives FAILED with error time and text, and re-raises |
| Lifecycle.Stop | src/askpanda_atlas_agents/agents/base.py:160-180 | no-op in STOPPING/STOPPED; otherwise always ends STOPPED; a returning hook clears nothing; a raising hook sets error time and "stop() failed: ..." and re-raises |
| Lifecycle.Health | src/askpanda_atlas_agents/agents/base.py:182-201 | `ok` holds exactly in RUNNING and STOPPED and never in FAILED; every other field is copied |
| Lifecycle.ApplyKeepsSettled | src/askpanda_atlas_agents/agents/base.py:128-180 | for hooks that return or raise an `Exception`, each public call leaves a settled agent outside STARTING/STOPPING and keeps its name |
| Lifecycle.RunKeepsSettled | src/askpanda_atlas_agents/agents/base.py:93-180 | over any sequence of calls and of hooks that return or raise an `Exception`, the agent never rests in STARTING/STOPPING and its name never changes |
| Lifecycle.ReachableIsSettled | src/askpanda_atlas_agents/agents/base.py:87-98 | every agent reachable from a new one through hooks that return or raise an `Exception` is settled and keeps the name it was given |
| Lifecycle.TickAfterStopRaises | tests/agents/test_base_agent.py:116-126 | after `stop`, `tick` raises a RuntimeError and leaves the agent as it was |
| Lifecycle.StartIsIdempotent | src/askpanda_atlas_agents/agents/base.py:128-129 | after a successful start, a second start does not run the hook and changes nothing |
| Lifecycle.StopIsIdempotent | src/askpanda_atlas_agents/agents/base.py:170-171 | after any stop, even a raising one, a second stop does not run the hook and changes nothing |
| Lifecycle.FailedCanRestart | src/askpanda_atlas_agents/agents/base.py:128-134 | FAILED is not terminal: a returning start hook brings the agent back to RUNNING and healthy |
| Lifecycle.HealthAfterOperations | src/askpanda_atlas_agents/agents/base.py:189-191 | a stop whose hook raises still leaves a healthy agent; a raising start or tick hook leaves an unhealthy one |
| Lifecycle.TickSuccessAfterTick | tests/agents/test_base_agent.py:112-113 | with a clock that does not run backwards, a successful tick's last success is no earlier than its last tick |
| Lifecycle.ErrorSurvivesCleanStop | src/askpanda_atlas_agents/agents/base.py:172-175 | after a failed tick and a clean stop, the agent is STOPPED and healthy and still reports the tick's error |
| Store.Empty | src/askpanda_atlas_agents/common/storage/duckdb_store.py:19-45 | a fresh in-memory database has no data table and no snapshot record |
| Store.InsertRows | src/askpanda_atlas_agents/common/storage/duckdb_store.py:65-66 | inserting row by row keeps the old rows as a prefix and puts input row i at position old length + i |
| Store.InsertRowsAppends | src/askpanda_atlas_agents/common/storage/duckdb_store.py:65-66 | row-by-row insertion is appending the whole row list |
| Store.WriteTable | src/askpanda_atlas_agents/common/storage/duckdb_store.py:51-66 | empty rows change nothing and create no table; overwrite leaves exactly the rows; append keeps old rows and adds the new ones in order; no other table and no snapshot changes |
| Store.RecordSnapshot | src/askpanda_atlas_agents/common/storage/duckdb_store.py:68-80 | the record under the id becomes exactly the given source, ok, hash and error; other ids and all tables are unchanged |
| Store.AppendsCompose | src/askpanda_atlas_agents/common/storage/duckdb_store.py:62-66 | two appends to one table equal one append of both row lists |
| Store.OverwriteForgets | src/askpanda_atlas_agents/common/storage/duckdb_store.py:62-63 | a non-empty overwrite erases whatever the previous write did to that table |
| Store.WritesCommute | src/askpanda_atlas_agents/common/storage/duckdb_store.py:51-66 | writes to two different tables commute |
| Store.LatestRecordWins | src/askpanda_atlas_agents/common/storage/duckdb_store.py:78-80 | two records under one id leave only the second |
| Store.RecordAndWriteCommute | src/askpanda_atlas_agents/common/storage/duckdb_store.py:51-80 | recording metadata and writing rows touch disjoint parts of the store |
| Ingestion.HistoryTable | src/askpanda_atlas_agents/agents/ingestion_agent/agent.py:88 | a source's table name is its name followed by "_history" |
| Ingestion.HistoryTableIsNotSnapshots | src/askpanda_atlas_agents/agents/ingestion_agent/agent.py:88-89 | no history table can be the metadata table "snapshots" |
| Ingestion.Locate | src/askpanda_atlas_agents/agents/ingestion_agent/agent.py:111-116 | a location exists exactly for "file" with a non-empty path or "url" with a non-empty URL; otherwise "invalid source config" |
| Ingestion.FetchSource | src/askpanda_atlas_agents/agents/ingestion_agent/agent.py:99-116 | an invalid configuration fails with "invalid source config" before any read; a valid one is the collaborator's answer for its location |
| Ingestion.Normalize | src/askpanda_atlas_agents/agents/ingestion_agent/agent.py:118-128 | normalising gives exactly one row, wrapping the payload |
| Ingestion.LastFetch | src/askpanda_atlas_agents/agents/ingestion_agent/agent.py:80 | a source's last fetch time is its cursor, or 0 for a source never fetched |
| Ingestion.Due | src/askpanda_atlas_agents/agents/ingestion_agent/agent.py:80-82 | a source is processed exactly when `now` is at least its last fetch time plus `interval_s` |
| Ingestion.ZeroIntervalAlwaysDue | src/askpanda_atlas_agents/agents/ingestion_agent/agent.py:80-82 | interval 0 is due whenever the clock is not behind the cursor, including a never-fetched source |
| Ingestion.DueAfterInterval | src/askpanda_atlas_agents/agents/ingestion_agent/agent.py:80-82 | after a fetch at t0 the source is due at t0+dt exactly when dt >= interval_s |
| Ingestion.RecordFailure | src/askpanda_atlas_agents/agents/ingestion_agent/agent.py:91-93 | a failure record has ok false, no hash and the message, under the next fresh id; cursors unchanged |
| Ingestion.ProcessSource | src/askpanda_atlas_agents/agents/ingestion_agent/agent.py:79-93 | one source's iteration never creates or drops the store |
| Ingestion.SkippedSourceUntouched | src/askpanda_atlas_agents/agents/ingestion_agent/agent.py:80-82 | a source that is not due, or a tick without a store, leaves records, tables and cursors unchanged |
| Ingestion.FetchFailureRecorded | src/askpanda_atlas_agents/agents/ingestion_agent/agent.py:83-93 | a due source whose fetch raises gets one failure record with its message; cursor and tables unchanged |
| Ingestion.SuccessRecorded | src/askpanda_atlas_agents/agents/ingestion_agent/agent.py:84-90 | a fully successful source gets one ok record with its hash, exactly one payload row appended to its history table, and its cursor set to now; other tables unchanged |
| Ingestion.WriteFailureLeavesTwoRecords | src/askpanda_atlas_agents/agents/ingestion_agent/agent.py:85-93 | a write that raises leaves an ok record and a failure record for the source, and leaves its cursor and the tables unchanged |
| Ingestion.ProcessAll | src/askpanda_atlas_agents/agents/ingestion_agent/agent.py:78-93 | the loop over the configured sources keeps the store present or absent, draws at most two ids per source, and changes nothing when there is no store |
| Ingestion.ProcessSourceConfined | src/askpanda_atlas_agents/agents/ingestion_agent/agent.py:79-93 | one iteration moves only its own cursor, and only to now; new records carry only the ids it draws, and when those ids are fresh every old record is kept unchanged; it only appends to its own history table |
| Ingestion.ProcessAllConfined | src/askpanda_atlas_agents/agents/ingestion_agent/agent.py:78-93 | over a whole tick, cursors only move to now and only for configured names; new records carry only ids drawn in the tick, and when those are fresh (as `uuid4()` ids are) every old record is kept unchanged; only configured history tables change, and only by appending |
| Ingestion.FreshConfinedKeeps | src/askpanda_atlas_agents/agents/ingestion_agent/agent.py:85-93 | when every stored id is below the next id drawn (fresh ids, as `uuid4()` gives), a confined change keeps every old record unchanged and leaves the ids fresh |
| Ingestion.ProcessAllSplits | src/askpanda_atlas_agents/agents/ingestion_agent/agent.py:79 | sources are processed strictly in configured order: a tick over xs+ys is xs, then ys |
| Ingestion.NewIngestionAgent | src/askpanda_atlas_agents/agents/ingestion_agent/agent.py:54-65 | a new ingestion agent is NEW with no store and no cursors |
| Ingestion.Start | src/askpanda_atlas_agents/agents/ingestion_agent/agent.py:67-69 | a start whose hook runs keeps the opened store and is RUNNING, or on a failed open is FAILED with the store unchanged and the error raised |
| Ingestion.Tick | src/askpanda_atlas_agents/agents/ingestion_agent/agent.py:71-93 | outside RUNNING raises "not running" and changes nothing; in RUNNING, with a tick hook that does not raise, it returns and stays RUNNING with last tick and last success set and the error cleared; cursors only move to now; records under ids below `firstId` are kept, and when every existing id is below `firstId` (fresh ids, as `uuid4()` gives) every existing record is kept unchanged; tables only grow by appending |
| Ingestion.Stop | src/askpanda_atlas_agents/agents/ingestion_agent/agent.py:95-97 | a stop whose hook runs drops the store, ends STOPPED and returns |
| Ingestion.Health | src/askpanda_atlas_agents/agents/base.py:239-248 | the ingestion agent's report is ok exactly in RUNNING/STOPPED and has empty details |
| Ingestion.ApplyKeepsInv | src/askpanda_atlas_agents/agents/ingestion_agent/agent.py:64-97 | for start hooks that return or raise an `Exception` and a tick hook that does not raise, each call keeps the agent settled and keeps the store present exactly while RUNNING |
| Ingestion.RunKeepsInv | src/askpanda_atlas_agents/agents/ingestion_agent/agent.py:64-97 | over any call sequence whose start hooks return or raise an `Exception` and whose tick hooks do not raise, the store exists exactly between a successful start and the next stop, and no call leaves STARTING or STOPPING |
| Ingestion.NewAgentInv | src/askpanda_atlas_agents/agents/ingestion_agent/agent.py:62-65 | a new ingestion agent satisfies the store/state invariant |
| Ingestion.TickNeverFails | src/askpanda_atlas_agents/agents/ingestion_agent/agent.py:91-93 | failures of fetching and writing a source never escape: while `record_snapshot` succeeds and `interval_s` is numeric, a RUNNING agent returns from tick and stays RUNNING and healthy |
| Ingestion.FileSourceScenario | tests/agents/ingestion_agent/test_ingestion_agent.py:2-13 | one file source at interval 0, start then tick: exactly one ok record and exactly one payload row in its history table |
| Ingestion.MissingFileScenario | src/askpanda_atlas_agents/agents/ingestion_agent/agent.py:83-93 | a file source whose read fails: tick returns, one failure record with the message, no table, agent still RUNNING |
| Ingestion.FailureIsIsolated | src/askpanda_atlas_agents/agents/ingestion_agent/agent.py:79-93 | of two due sources, a failing first one still lets the second record ok and persist its row; the failing cursor stays put |
| Dummy.NewDummy | src/askpanda_atlas_agents/agents/dummy_agent/agent.py:55-65 | a new dummy agent is NEW with zero ticks and the stop flag clear, and an omitted configuration means the defaults (1 s interval, no work delay) |
| Dummy.RequestStop | src/askpanda_atlas_agents/agents/dummy_agent/agent.py:72-74 | `request_stop` sets the flag and changes nothing else |
| Dummy.Start | src/askpanda_atlas_agents/agents/dummy_agent/agent.py:96-99 | the start hook never raises: a start that runs it ends RUNNING and returns |
| Dummy.Tick | src/askpanda_atlas_agents/agents/dummy_agent/agent.py:101-105 | in RUNNING each tick adds exactly one to the counter and sets last tick; it then returns and stays RUNNING, unless the work-delay sleep overflows, in which case the agent is FAILED with the `OverflowError` recorded and re-raised; outside RUNNING raises "not running" with the counter unchanged |
| Dummy.SleepFault | src/askpanda_atlas_agents/agents/dummy_agent/agent.py:90 | `time.sleep` raises nothing exactly for a non-negative duration whose nanosecond count fits in a signed 64-bit integer; otherwise `OverflowError` when it does not fit, and `ValueError` for a negative duration that does fit |
| Dummy.WorkFault | src/askpanda_atlas_agents/agents/dummy_agent/agent.py:103-105 | the tick hook sleeps only for a positive work delay, so it raises exactly when the delay overflows, and then always `OverflowError` |
| Dummy.RunFault | src/askpanda_atlas_agents/agents/dummy_agent/agent.py:88-90 | after a first tick from a startable state, the loop ends with the work-delay failure if there is one, and otherwise with the interval sleep's failure; it ends with neither exactly when both sleeps are valid |
| Dummy.Details | src/askpanda_atlas_agents/agents/dummy_agent/agent.py:111-118 | the details are exactly `tick_interval_s`, `work_delay_s`, `ticks` and `stop_requested`, holding the configuration, the counter and the flag |
| Dummy.Stop | src/askpanda_atlas_agents/agents/dummy_agent/agent.py:107-109 | the stop hook sets the stop flag and never raises; the agent ends STOPPED |
| Dummy.Health | src/askpanda_atlas_agents/agents/dummy_agent/agent.py:111-118 | details report `ticks` as the counter and `stop_requested` as the flag |
| Dummy.ApplyKeepsInv | src/askpanda_atlas_agents/agents/dummy_agent/agent.py:72-109 | each call keeps the dummy settled, FAILED only when its work delay overflows `time.sleep`, and STOPPED only with the flag set; it keeps the configuration, never clears the flag and never lowers the counter |
| Dummy.RunKeepsInv | src/askpanda_atlas_agents/agents/dummy_agent/agent.py:72-109 | over any call sequence, the dummy is FAILED only when its work delay overflows `time.sleep`, is STOPPED only with the flag set, and the flag once set stays set |
| Dummy.NewDummyInv | src/askpanda_atlas_agents/agents/dummy_agent/agent.py:55-65 | a new dummy satisfies the invariant |
| Dummy.StartTickTickStop | tests/agents/dummy_agent/test_dummy_agent.py:31-49 | with the test's configuration (0.01 s interval), start, two ticks and stop give RUNNING, a health report of two ticks, then STOPPED |
| Dummy.RunForever | src/askpanda_atlas_agents/agents/dummy_agent/agent.py:76-92 | the run loop always ends STOPPED with the flag set; it ticks exactly once per loop check made before the stop request, or not at all if the flag was already set; a tick that raises (from STARTING, or when the work delay overflows) ends the loop and is re-raised after stop; an interval sleep that refuses its argument (`ValueError` when negative, `OverflowError` when too large) does the same after the first tick; in either failure case from a startable state exactly one tick is made |

## Left out

- Concurrency. The atomic publication of state to concurrent `health()` readers and the transient STARTING/STOPPING state seen while a hook runs are not modelled; operations are atomic.
- Clocks. `datetime.now(timezone.utc)` and `time.time()` become integer parameters. Time zones, ISO-8601 formatting and `HealthReport.to_dict` are left out.
- `common/panda/source.py` is not part of this model. File reads, HTTP, JSON parsing and SHA-256 are the `fetch` oracle.
- The two `cli.py` files (argparse, YAML, exit codes) are not part of this model.
- Signal handlers, threads and the duration of `time.sleep` are not modelled. Each sleep is modelled only by the exception it raises for a duration it refuses (`Dummy.SleepFault`).
- SQL execution is not modelled: table creation, the `INSTALL sqlite_scannable` attempt, and JSON encoding of rows.
- The `fetched_utc` and `updated_utc` timestamp columns of the store are not modelled.
- Writing through `write_table` into the table named `snapshots` is not modelled. The ingestion agent never does this (`Ingestion.HistoryTableIsNotSnapshots`).
- Table names are not SQL-checked. A write that DuckDB would reject is the `writeFault` oracle.
- A failing write leaves the tables unchanged. A table that DuckDB may have created before the failing `INSERT` is not modelled.
- `record_snapshot` is assumed not to raise. If it raised inside the tick's exception handler (`agents/ingestion_agent/agent.py:92-93`), the exception would escape `_tick_impl`, skip the remaining sources and mark the agent FAILED with the store still open.
- `interval_s` is an integer in the model. In the code a non-numeric value, such as `"300"` quoted in the YAML that the ingestion CLI passes unchecked into `SourceConfig`, raises `TypeError` at the gate (`agents/ingestion_agent/agent.py:80-81`). The gate is outside the `try`, so the error escapes `_tick_impl`, skips the remaining sources and marks the agent FAILED with the store still open.
- Exceptions from `_health_details` are not modelled.
- `uuid.uuid4()` is replaced by consecutive ids from a caller-supplied `firstId`.
- Row timestamps: `Row.fetchedAt` takes the tick's `now`. In the source, `_normalize` takes its own wall-clock reading later in the same tick.
- Lifecycle.Repr: models `repr()` only for an exception whose `str()` is its single string argument, using Python's quote choice. It does not cover exceptions whose `str()` differs from the argument: `KeyError('k')` has `str()` equal to `'k'` with quotes, so the model would record `KeyError("'k'")` where the code records `KeyError('k')`. It also does not escape quotes, backslashes or control characters.
- Opening the database at `duckdb_path` is the `open` result of the start hook. Its contents are given. It is empty for `:memory:`.
- `SourceConfig.type` and `IngestionAgentConfig.tick_interval_s` are carried by no model operation, because the core never reads them.
- Lifecycle.ApplyKeepsSettled: holds only for hooks that return or raise an `Exception`. The handlers in `agents/base.py:135`, `:156` and `:176` catch only `Exception`, so a start hook raising `KeyboardInterrupt` or `SystemExit` leaves the agent in STARTING, and a stop hook doing so leaves it in STOPPING. From STARTING every later `start()` is a no-op. The outcome type has no case for such exceptions.
- Lifecycle.RunKeepsSettled: the same limit as `Lifecycle.ApplyKeepsSettled`: a `BaseException` from a start or stop hook leaves STARTING or STOPPING and is not modelled.
- Lifecycle.ReachableIsSettled: the same limit as `Lifecycle.ApplyKeepsSettled`. An interrupted start hook makes STARTING reachable in the code.
- Ingestion.ApplyKeepsInv: the same limit as `Lifecycle.ApplyKeepsSettled`. An interrupted DuckDB open in the start hook would leave the agent in STARTING with no store.
- Ingestion.RunKeepsInv: the same limit as `Ingestion.ApplyKeepsInv`.
- Ingestion.Tick: `uuid4()` ids never collide with stored ones, but the model's ids come from the caller's `firstId`. Old records are promised to survive only when every stored id is below `firstId`. An id that collides would replace a record, which the code never does.
- Store.WriteTable: table names are compared as exact strings. The code puts the name into SQL unquoted, and DuckDB identifiers are case-insensitive, so sources named `Q` and `q` append to one table in the code but to two in the model.
- Store.WritesCommute: `a != b` as strings is taken to mean two distinct tables. For names that differ only in letter case, such as `Q_history` and `q_history`, this does not hold in DuckDB.
- Ingestion.ProcessAllConfined: "only configured history tables change" compares table names as exact strings, with the same case-sensitivity limit as `Store.WriteTable`.
- Ingestion.Tick: the tick hook is taken never to raise. In the code it raises when `record_snapshot` fails inside the handler or when a source's `interval_s` is not numeric (see the two lines above). The agent then ends FAILED, and the promised normal return and RUNNING state do not hold.
- Ingestion.TickNeverFails: holds only while `record_snapshot` does not raise and every `interval_s` is numeric. Otherwise the exception escapes `_tick_impl` and the agent ends FAILED.
- Ingestion.ApplyKeepsInv: "store present exactly while RUNNING" relies on the tick hook never raising. A tick that fails through `record_snapshot` or the interval gate leaves the agent FAILED with the store still open.
- Ingestion.RunKeepsInv: the same tick-hook limit as `Ingestion.ApplyKeepsInv`.
- Dummy.Tick: configuration values are reals, so NaN and infinity cannot be expressed. In the code `time.sleep` raises `ValueError` for NaN and `OverflowError` for infinity, and argparse's `float` accepts both. The overflow boundary is exact for reals but not for the rounding of Python floats. The `OverflowError` message text varies between Python versions.
- Dummy.RunForever: the same NaN and infinity limit as `Dummy.Tick`, for both the work delay and the tick interval.
- Dummy.ApplyKeepsInv: "FAILED only when the work delay overflows" leaves out an infinite work delay, which also fails the tick in the code but cannot be expressed here. A NaN work delay is never slept, because `nan > 0` is false.
- Dummy.RunKeepsInv: the same NaN and infinity limit as `Dummy.ApplyKeepsInv`.

=== FILE: dummy.dfy ===
/**
 * The dummy agent of `agents/dummy_agent/agent.py`: start and stop hooks
 * that never raise, a tick hook whose only failure is the work-delay
 * sleep refusing its argument, a tick counter, a stop flag, and the
 * `run_forever` driver loop. The stop flag is a plain boolean; a
 * `request_stop` arriving from another thread or a signal handler is the
 * oracle `arrival` of `RunForever`. Of each `time.sleep` only the
 * exception it raises for an unconvertible or negative duration is
 * modelled, not the time it takes.
 */
module Dummy {
  import opened Wrappers
  import L = Lifecycle

  datatype DummyConfig = DummyConfig(tickIntervalS: real, workDelayS: real)

  /** The defaults of `DummyAgentConfig`: one second between ticks, no work delay. */
  const DefaultConfig: DummyConfig := DummyConfig(1.0, 0.0)

  /** What `time.sleep` raises for a negative duration. */
  const NegativeSleep: L.Exc := L.Exc("ValueError", "sleep length must be non-negative")

  /** What `time.sleep` raises for a duration whose nanosecond count does not fit. */
  const SleepOverflow: L.Exc := L.Exc("OverflowError", "timestamp too large to convert to C _PyTime_t")

  const NanosPerSecond: real := 1000000000.0

  /** `time.sleep` converts its argument to a signed 64-bit count of nanoseconds. */
  const SleepLimitNs: real := 9223372036854775808.0

  /**
   * The exception `time.sleep(d)` raises, if any. The conversion to
   * nanoseconds is checked first, so a huge negative duration overflows;
   * only a convertible negative duration is refused as negative.
   */
  function SleepFault(d: real): (e: Option<L.Exc>)
    ensures e.None? <==> 0.0 <= d && d * NanosPerSecond < SleepLimitNs
    ensures e.Some? && 0.0 <= d ==> e.value == SleepOverflow
    ensures d < 0.0 && -SleepLimitNs <= d * NanosPerSecond ==> e == Some(NegativeSleep)
  {
    if !(-SleepLimitNs <= d * NanosPerSecond < SleepLimitNs) then Some(SleepOverflow)
    else if d < 0.0 then Some(NegativeSleep)
    else None
  }

  /**
   * What the tick hook raises: it sleeps only for a positive work delay,
   * so the only failure is an overflowing one.
   */
  function WorkFault(cfg: DummyConfig): (e: Option<L.Exc>)
    ensures e.Some? <==> cfg.workDelayS * NanosPerSecond >= SleepLimitNs
    ensures e.Some? ==> e.value == SleepOverflow
  {
    if cfg.workDelayS > 0.0 then SleepFault(cfg.workDelayS) else None
  }

  /** What ends `run_forever` after its first tick: the work sleep, else the interval sleep. */
  function RunFault(cfg: DummyConfig): (e: Option<L.Exc>)
    ensures e.None? <==> WorkFault(cfg).None? && SleepFault(cfg.tickIntervalS).None?
    ensures WorkFault(cfg).Some? ==> e == WorkFault(cfg)
  {
    if WorkFault(cfg).Some? then WorkFault(cfg) else SleepFault(cfg.tickIntervalS)
  }

  datatype DummyAgent = DummyAgent(base: L.Agent, config: DummyConfig, ticks: nat, stopRequested: bool)

  /** `DummyAgent(name, config)`: an omitted configuration means the defaults. */
  function NewDummy(name: string, config: Option<DummyConfig>): (ag: DummyAgent)
    ensures ag.base == L.NewAgent(name)
    ensures config.Some? ==> ag.config == config.value
    ensures config.None? ==> ag.config == DefaultConfig
    ensures ag.ticks == 0 && !ag.stopRequested
  {
    DummyAgent(L.NewAgent(name), if config.Some? then config.value else DefaultConfig, 0, false)
  }

  /** `request_stop`: sets the flag and nothing else. */
  function RequestStop(ag: DummyAgent): (r: DummyAgent)
    ensures r.stopRequested
    ensures r.base == ag.base && r.ticks == ag.ticks && r.config == ag.config
  {
    ag.(stopRequested := true)
  }

  /** `start`: the hook does nothing and never raises. */
  function Start(ag: DummyAgent): (r: L.Step<DummyAgent>)
    ensures !L.StartCallsHook(ag.base.state) ==> r == L.Step(ag, L.Returned)
    ensures L.StartCallsHook(ag.base.state) ==> r.agent.base.state == L.Running && r.outcome == L.Returned
    ensures r.agent.ticks == ag.ticks && r.agent.stopRequested == ag.stopRequested
    ensures r.agent.base.name == ag.base.name && r.agent.config == ag.config
  {
    // The clock reading is used only when the hook raises, which never happens here.
    var b := L.Start(ag.base, L.Returned, 0);
    L.Step(ag.(base := b.agent), b.outcome)
  }

  /**
   * `tick`: in RUNNING the hook counts one tick, then sleeps for the work
   * delay; it returns unless that sleep overflows, which fails the agent.
   * Outside RUNNING "not running" is raised.
   */
  function Tick(ag: DummyAgent, tickAt: int, doneAt: int): (r: L.Step<DummyAgent>)
    ensures !L.TickCallsHook(ag.base.state) ==>
      r == L.Step(ag, L.Raised(L.NotRunning(ag.base.name, ag.base.state)))
    ensures L.TickCallsHook(ag.base.state) ==>
      r.agent.ticks == ag.ticks + 1 && r.agent.base.lastTick == Some(tickAt)
    ensures L.TickCallsHook(ag.base.state) && WorkFault(ag.config).None? ==>
      && r.agent.base.state == L.Running && r.outcome == L.Returned
      && r.agent.base.lastSuccess == Some(doneAt)
    ensures L.TickCallsHook(ag.base.state) && WorkFault(ag.config).Some? ==>
      && r.agent.base.state == L.Failed && r.outcome == L.Raised(SleepOverflow)
      && r.agent.base.lastErrorAt == Some(doneAt) && r.agent.base.error == Some(L.Describe(SleepOverflow))
    ensures r.agent.stopRequested == ag.stopRequested && r.agent.base.name == ag.base.name
    ensures r.agent.config == ag.config
  {
    if !L.TickCallsHook(ag.base.state) then
      L.Step(ag, L.Tick(ag.base, L.Returned, tickAt, doneAt).outcome)
    else
      var hook := if WorkFault(ag.config).Some? then L.Raised(WorkFault(ag.config).value) else L.Returned;
      var b := L.Tick(ag.base, hook, tickAt, doneAt);
      L.Step(ag.(base := b.agent, ticks := ag.ticks + 1), b.outcome)
  }

  /** `stop`: the hook sets the stop flag and never raises. */
  function Stop(ag: DummyAgent, now: int): (r: L.Step<DummyAgent>)
    ensures !L.StopCallsHook(ag.base.state) ==> r == L.Step(ag, L.Returned)
    ensures L.StopCallsHook(ag.base.state) ==>
      r.agent.base.state == L.Stopped && r.agent.stopRequested && r.outcome == L.Returned
    ensures r.agent.ticks == ag.ticks && r.agent.base.name == ag.base.name
    ensures r.agent.config == ag.config
  {
    if !L.StopCallsHook(ag.base.state) then L.Step(ag, L.Returned)
    else
      var b := L.Stop(ag.base, L.Returned, now);
      L.Step(ag.(base := b.agent, stopRequested := true), b.outcome)
  }

  /** `_health_details`: the configuration, the tick count and the stop flag. */
  function Details(ag: DummyAgent): (d: map<string, L.Detail>)
    ensures d.Keys == {"tick_interval_s", "work_delay_s", "ticks", "stop_requested"}
    ensures d["tick_interval_s"] == L.DReal(ag.config.tickIntervalS) && d["work_delay_s"] == L.DReal(ag.config.workDelayS)
    ensures d["ticks"] == L.DInt(ag.ticks) && d["stop_requested"] == L.DBool(ag.stopRequested)
  {
    map["tick_interval_s" := L.DReal(ag.config.tickIntervalS),
        "work_delay_s" := L.DReal(ag.config.workDelayS),
        "ticks" := L.DInt(ag.ticks),
        "stop_requested" := L.DBool(ag.stopRequested)]
  }

  /** `health`: the base report carrying the dummy's details. */
  function Health(ag: DummyAgent): (h: L.HealthReport)
    ensures h.ok <==> (ag.base.state == L.Running || ag.base.state == L.Stopped)
    ensures "ticks" in h.details && h.details["ticks"] == L.DInt(ag.ticks)
    ensures "stop_requested" in h.details && h.details["stop_requested"] == L.DBool(ag.stopRequested)
  {
    L.Health(ag.base, Details(ag))
  }

  // ----- sequences of calls --------------------------------------------

  datatype Call = RequestCall | StartCall | TickCall(tickAt: int, doneAt: int) | StopCall(now: int)

  function Apply(ag: DummyAgent, c: Call): L.Step<DummyAgent> {
    match c
    case RequestCall => L.Step(RequestStop(ag), L.Returned)
    case StartCall => Start(ag)
    case TickCall(t, d) => Tick(ag, t, d)
    case StopCall(now) => Stop(ag, now)
  }

  function Run(ag: DummyAgent, calls: seq<Call>): DummyAgent
    decreases |calls|
  {
    if |calls| == 0 then ag else Run(Apply(ag, calls[0]).agent, calls[1..])
  }

  /**
   * What holds of every dummy agent a driver can observe: settled, FAILED
   * only when the work delay overflows `time.sleep`, and STOPPED only with
   * the flag set.
   */
  predicate Inv(ag: DummyAgent) {
    && L.Settled(ag.base.state)
    && (ag.base.state == L.Failed ==> WorkFault(ag.config).Some?)
    && (ag.base.state == L.Stopped ==> ag.stopRequested)
  }

  lemma ApplyKeepsInv(ag: DummyAgent, c: Call)
    requires Inv(ag)
    ensures Inv(Apply(ag, c).agent)
    ensures Apply(ag, c).agent.config == ag.config
    ensures ag.stopRequested ==> Apply(ag, c).agent.stopRequested
    ensures Apply(ag, c).agent.ticks >= ag.ticks
  {
  }

  /**
   * From any reachable agent, whatever the driver calls: the invariant
   * holds, the stop flag once set is never cleared, and the tick counter
   * never goes down.
   */
  lemma {:induction false} RunKeepsInv(ag: DummyAgent, calls: seq<Call>)
    requires Inv(ag)
    ensures Inv(Run(ag, calls))
    ensures Run(ag, calls).config == ag.config
    ensures ag.stopRequested ==> Run(ag, calls).stopRequested
    ensures Run(ag, calls).ticks >= ag.ticks
    decreases |calls|
  {
    if |calls| > 0 {
      ApplyKeepsInv(ag, calls[0]);
      RunKeepsInv(Apply(ag, calls[0]).agent, calls[1..]);
    }
  }

  lemma NewDummyInv(name: string, config: Option<DummyConfig>)
    ensures Inv(NewDummy(name, config))
  {
  }

  /** The lifecycle test: start, two ticks, health reporting two ticks, stop. */
  lemma StartTickTickStop(name: string, t1: int, d1: int, t2: int, d2: int, now: int)
    ensures var a := Start(NewDummy(name, Some(DummyConfig(0.01, 0.0)))).agent;
      var b := Tick(Tick(a, t1, d1).agent, t2, d2).agent;
      && a.base.state == L.Running
      && b.ticks == 2 && Health(b).ok && Health(b).details["ticks"] == L.DInt(2)
      && Stop(b, now).agent.base.state == L.Stopped
  {
  }

  /**
   * `run_forever`: `start`, then `tick` while the stop flag is unset,
   * then `stop` in every case. `arrival` is how many times the loop finds
   * the flag unset before an outside `request_stop` lands (0: before the
   * first check); `clock(i)` is the i-th clock reading the ticks and the
   * final stop take. A tick that raises ends the loop, and so does a
   * `time.sleep(tick_interval_s)` after a returning tick that refuses its
   * interval; `stop` still runs, and the exception is what the caller
   * sees.
   */
  method RunForever(ag: DummyAgent, arrival: nat, clock: nat -> int) returns (r: DummyAgent, out: L.Outcome)
    ensures r.base.state == L.Stopped && r.stopRequested
    ensures r.base.name == ag.base.name
    ensures ag.base.state != L.Starting && (ag.stopRequested || arrival == 0 || RunFault(ag.config).None?) ==>
      out == L.Returned && r.ticks == ag.ticks + (if ag.stopRequested then 0 else arrival)
    ensures ag.base.state != L.Starting && !ag.stopRequested && arrival > 0 && RunFault(ag.config).Some? ==>
      out == L.Raised(RunFault(ag.config).value) && r.ticks == ag.ticks + 1
    ensures ag.base.state == L.Starting ==>
      r.ticks == ag.ticks && (out.Raised? <==> !ag.stopRequested && arrival > 0)
  {
    var started := Start(ag);
    r := started.agent;
    var readings: nat := 0;
    var checks: nat := 0;
    var raised: L.Outcome := L.Returned;
    if arrival == 0 {
      r := RequestStop(r);
    }
    while !r.stopRequested && raised == L.Returned
      invariant checks <= arrival
      invariant !r.stopRequested ==> checks < arrival
      invariant r.stopRequested && !ag.stopRequested ==> checks == arrival
      invariant ag.stopRequested ==> r.stopRequested && checks == 0
      invariant readings == 2 * checks
      invariant r.base.name == ag.base.name && r.config == ag.config
      invariant ag.base.state != L.Starting && RunFault(ag.config).None? ==>
        r.base.state == L.Running && raised == L.Returned && r.ticks == ag.ticks + checks
      invariant ag.base.state != L.Starting && RunFault(ag.config).Some? ==>
        && r.ticks == ag.ticks + checks && checks <= 1
        && (checks == 0 ==> r.base.state == L.Running)
        && L.StopCallsHook(r.base.state)
        && (raised == L.Returned <==> checks == 0)
        && (raised != L.Returned ==> raised == L.Raised(RunFault(ag.config).value))
      invariant ag.base.state == L.Starting ==>
        r.base.state == L.Starting && r.ticks == ag.ticks && (raised.Raised? <==> checks > 0)
      decreases arrival - checks
    {
      var t := Tick(r, clock(readings), clock(readings + 1));
      readings := readings + 2;
      r := t.agent;
      raised := t.outcome;
      if raised == L.Returned && SleepFault(r.config.tickIntervalS).Some? {
        raised := L.Raised(SleepFault(r.config.tickIntervalS).value);
      }
      checks := checks + 1;
      if checks == arrival {
        r := RequestStop(r);
      }
    }
    var stopped := Stop(r, clock(readings));
    r := stopped.agent;
    out := if raised.Raised? then raised else stopped.outcome;
  }
}

=== FILE: ingestion.dfy ===
/**
 * The ingestion agent of `agents/ingestion_agent/agent.py` on top of the
 * lifecycle: a start hook that opens the store, a tick hook that folds
 * over the configured sources, and a stop hook that drops the store.
 *
 * Everything the agent reaches outside itself is a parameter: reading a
 * file or a URL is the oracle `fetch`, a failing table write is the oracle
 * `writeFault` (the message the write raises, if it does), opening the
 * database is the `open` result of the start hook, `uuid4()` is a run of
 * consecutive ids starting at `firstId`, and every clock reading is an
 * integer argument. The payload type `P` is opaque.
 */
module Ingestion {
  import opened Wrappers
  import L = Lifecycle
  import S = Store

  datatype SourceConfig = SourceConfig(
    name: string,
    kind: string,
    mode: string,
    path: Option<string>,
    url: Option<string>,
    intervalS: int)

  /** Where `_fetch_source` reads from. */
  datatype Location = FileAt(path: string) | UrlAt(url: string)

  /** What the fetch collaborator returns: the parsed payload and its content hash. */
  datatype RawSnapshot<P> = RawSnapshot(source: string, raw: P, contentHash: string)

  /** A fetch either returns a snapshot or raises with a message. */
  datatype Fetch<P> = Fetched(snap: RawSnapshot<P>) | FetchFailed(message: string)

  /** The one row `_normalize` makes: the payload and a fetch timestamp. */
  datatype Row<P> = Row(payload: P, fetchedAt: int)

  const InvalidConfig: string := "invalid source config"
  const HistorySuffix: string := "_history"

  /** Python truthiness of an optional string: present and non-empty. */
  predicate Given(o: Option<string>) {
    o.Some? && o.value != ""
  }

  /** The table a source's rows go to. */
  function HistoryTable(name: string): (t: string)
    ensures name <= t && |t| == |name| + |HistorySuffix|
    ensures t[|name|..] == HistorySuffix
  {
    name + HistorySuffix
  }

  /** No history table is ever the metadata table `snapshots`. */
  lemma HistoryTableIsNotSnapshots(name: string)
    ensures HistoryTable(name) != "snapshots"
  {
    var t := HistoryTable(name);
    var m: string := "snapshots";
    assert m[|m| - |HistorySuffix|..][0] == 'n' != HistorySuffix[0];
    assert t[|t| - |HistorySuffix|..] == HistorySuffix;
  }

  /**
   * The dispatch of `_fetch_source`: a file source with a non-empty path,
   * a URL source with a non-empty URL, or "invalid source config".
   */
  function Locate(s: SourceConfig): (r: Result<Location, string>)
    ensures r.Success? <==> (s.mode == "file" && Given(s.path)) || (s.mode == "url" && Given(s.url))
    ensures r.Success? && s.mode == "file" ==> r.value == FileAt(s.path.value)
    ensures r.Success? && s.mode == "url" ==> r.value == UrlAt(s.url.value)
    ensures r.Failure? ==> r.error == InvalidConfig
  {
    if s.mode == "file" && Given(s.path) then Success(FileAt(s.path.value))
    else if s.mode == "url" && Given(s.url) then Success(UrlAt(s.url.value))
    else Failure(InvalidConfig)
  }

  /** `_fetch_source`: an invalid configuration raises before anything is read. */
  function FetchSource<P>(s: SourceConfig, fetch: Location -> Fetch<P>): (r: Fetch<P>)
    ensures Locate(s).Failure? ==> r == FetchFailed(InvalidConfig)
    ensures Locate(s).Success? ==> r == fetch(Locate(s).value)
  {
    match Locate(s)
    case Failure(m) => FetchFailed(m)
    case Success(loc) => fetch(loc)
  }

  /** `_normalize`: exactly one row wrapping the payload. */
  function Normalize<P>(raw: RawSnapshot<P>, at: int): (rows: seq<Row<P>>)
    ensures |rows| == 1 && rows[0].payload == raw.raw
  {
    [Row(raw.raw, at)]
  }

  // ----- the interval gate ---------------------------------------------

  /** The last successful fetch time of a source; never fetched counts as 0. */
  function LastFetch(cursors: map<string, int>, name: string): (t: int)
    ensures name in cursors ==> t == cursors[name]
    ensures name !in cursors ==> t == 0
  {
    if name in cursors then cursors[name] else 0
  }

  /** A source is processed unless `now - last < interval_s`. */
  predicate Due(cursors: map<string, int>, s: SourceConfig, now: int)
    ensures Due(cursors, s, now) <==> now >= LastFetch(cursors, s.name) + s.intervalS
  {
    !(now - LastFetch(cursors, s.name) < s.intervalS)
  }

  /** Interval 0 is due on every tick whose clock has not gone back past the cursor. */
  lemma ZeroIntervalAlwaysDue(cursors: map<string, int>, s: SourceConfig, now: int)
    requires s.intervalS == 0 && now >= LastFetch(cursors, s.name)
    ensures Due(cursors, s, now)
  {
  }

  /** After a fetch at `t0`, a source is due again exactly `interval_s` later. */
  lemma DueAfterInterval(cursors: map<string, int>, s: SourceConfig, t0: int, dt: int)
    ensures Due(cursors[s.name := t0], s, t0 + dt) <==> dt >= s.intervalS
  {
  }

  // ----- one tick's fold over the sources ------------------------------

  /** What the fold carries: the store (absent before start), the cursors, the next fresh id. */
  datatype Cycle<P> = Cycle(store: Option<S.Store<Row<P>>>, cursors: map<string, int>, nextId: nat)

  /** The failure record for a source, under the next fresh id. */
  function RecordFailure<P>(c: Cycle<P>, name: string, message: string): (r: Cycle<P>)
    requires c.store.Some?
    ensures r.store.Some? && r.cursors == c.cursors && r.nextId == c.nextId + 1
    ensures r.store.value == S.RecordSnapshot(c.store.value, c.nextId, name, false, None, Some(message))
  {
    c.(store := Some(S.RecordSnapshot(c.store.value, c.nextId, name, false, None, Some(message))),
       nextId := c.nextId + 1)
  }

  /**
   * One iteration of `_tick_impl`'s loop. A source that is not due is
   * skipped. Without a store every attempt dies before anything is
   * recorded (the handler's `if self.store` guard). Otherwise a failed
   * fetch yields one failure record; a successful fetch yields a success
   * record first, then either the history row and the cursor advance, or,
   * when the write raises, a second (failure) record.
   */
  function ProcessSource<P>(c: Cycle<P>, s: SourceConfig, now: int,
                            fetch: Location -> Fetch<P>, writeFault: string -> Option<string>): (r: Cycle<P>)
    ensures r.store.Some? == c.store.Some?
    ensures c.nextId <= r.nextId <= c.nextId + 2
  {
    if !Due(c.cursors, s, now) || c.store.None? then c
    else match FetchSource(s, fetch)
      case FetchFailed(m) => RecordFailure(c, s.name, m)
      case Fetched(raw) =>
        var db := S.RecordSnapshot(c.store.value, c.nextId, s.name, true, Some(raw.contentHash), None);
        var table := HistoryTable(s.name);
        match writeFault(table)
        case Some(m) => RecordFailure(c.(store := Some(db), nextId := c.nextId + 1), s.name, m)
        case None => Cycle(Some(S.WriteTable(db, table, Normalize(raw, now), false)),
                           c.cursors[s.name := now], c.nextId + 1)
  }

  /** A source that is not due, or a tick without a store, changes nothing. */
  lemma SkippedSourceUntouched<P>(c: Cycle<P>, s: SourceConfig, now: int,
                                  fetch: Location -> Fetch<P>, writeFault: string -> Option<string>)
    requires !Due(c.cursors, s, now) || c.store.None?
    ensures ProcessSource(c, s, now, fetch, writeFault) == c
  {
  }

  /**
   * A due source whose fetch raises (including an invalid configuration)
   * gets exactly one record: not ok, no hash, the message as error. Its
   * cursor and every table stay as they were.
   */
  lemma FetchFailureRecorded<P>(c: Cycle<P>, s: SourceConfig, now: int,
                                fetch: Location -> Fetch<P>, writeFault: string -> Option<string>)
    requires Due(c.cursors, s, now) && c.store.Some?
    requires FetchSource(s, fetch).FetchFailed?
    ensures var r := ProcessSource(c, s, now, fetch, writeFault);
      && r.cursors == c.cursors
      && r.nextId == c.nextId + 1
      && r.store.value.tables == c.store.value.tables
      && r.store.value.snapshots == c.store.value.snapshots[c.nextId := S.Snapshot(s.name, false, None, Some(FetchSource(s, fetch).message))]
  {
  }

  /**
   * A due source whose fetch and write both succeed gets one ok record
   * with the content hash and no error, exactly one row wrapping the
   * payload at the end of `<name>_history`, and its cursor set to `now`.
   */
  lemma SuccessRecorded<P>(c: Cycle<P>, s: SourceConfig, now: int,
                           fetch: Location -> Fetch<P>, writeFault: string -> Option<string>)
    requires Due(c.cursors, s, now) && c.store.Some?
    requires FetchSource(s, fetch).Fetched?
    requires writeFault(HistoryTable(s.name)).None?
    ensures var raw := FetchSource(s, fetch).snap;
      var r := ProcessSource(c, s, now, fetch, writeFault);
      var t := HistoryTable(s.name);
      && r.cursors == c.cursors[s.name := now]
      && r.nextId == c.nextId + 1
      && r.store.value.snapshots == c.store.value.snapshots[c.nextId := S.Snapshot(s.name, true, Some(raw.contentHash), None)]
      && t in r.store.value.tables
      && r.store.value.tables[t] == (if t in c.store.value.tables then c.store.value.tables[t] else []) + [Row(raw.raw, now)]
      && forall u :: u in c.store.value.tables && u != t ==> r.store.value.tables[u] == c.store.value.tables[u]
  {
  }

  /**
   * A write that raises after a successful fetch leaves both an ok record
   * and a failure record for the source, since the ok record is written
   * before the rows; the tables and the cursor stay as they were.
   */
  lemma WriteFailureLeavesTwoRecords<P>(c: Cycle<P>, s: SourceConfig, now: int,
                                        fetch: Location -> Fetch<P>, writeFault: string -> Option<string>)
    requires Due(c.cursors, s, now) && c.store.Some?
    requires FetchSource(s, fetch).Fetched?
    requires writeFault(HistoryTable(s.name)).Some?
    ensures var raw := FetchSource(s, fetch).snap;
      var r := ProcessSource(c, s, now, fetch, writeFault);
      && r.cursors == c.cursors
      && r.nextId == c.nextId + 2
      && r.store.value.tables == c.store.value.tables
      && r.store.value.snapshots[c.nextId] == S.Snapshot(s.name, true, Some(raw.contentHash), None)
      && r.store.value.snapshots[c.nextId + 1] == S.Snapshot(s.name, false, None, writeFault(HistoryTable(s.name)))
  {
  }

  /**
   * The loop of `_tick_impl`: every source in configured order, against
   * one `now`. Each source draws at most two ids (an ok record and a
   * failure record).
   */
  function ProcessAll<P>(c: Cycle<P>, sources: seq<SourceConfig>, now: int,
                         fetch: Location -> Fetch<P>, writeFault: string -> Option<string>): (r: Cycle<P>)
    ensures r.store.Some? == c.store.Some?
    ensures c.nextId <= r.nextId <= c.nextId + 2 * |sources|
    ensures c.store.None? ==> r == c
    decreases |sources|
  {
    if |sources| == 0 then c
    else ProcessAll(ProcessSource(c, sources[0], now, fetch, writeFault), sources[1..], now, fetch, writeFault)
  }

  /** The source names of a configuration. */
  function Names(sources: seq<SourceConfig>): set<string> {
    set s | s in sources :: s.name
  }

  /** Ids are drawn upwards from `nextId`; the store stays present or absent. */
  ghost predicate Grows<P>(c: Cycle<P>, r: Cycle<P>) {
    && r.nextId >= c.nextId
    && r.store.Some? == c.store.Some?
  }

  /**
   * What one source's iteration can change: cursors only move to `now`
   * and only for its name; records only appear under ids drawn in the
   * step; only its history table changes, and only by appending.
   */
  ghost predicate Confined<P>(c: Cycle<P>, r: Cycle<P>, names: set<string>, now: int)
    requires Grows(c, r)
  {
    && c.cursors.Keys <= r.cursors.Keys
    && (forall n :: n in r.cursors ==>
          r.cursors[n] == now || (n in c.cursors && r.cursors[n] == c.cursors[n]))
    && (forall n :: n in r.cursors && n !in names ==> n in c.cursors && r.cursors[n] == c.cursors[n])
    && (c.store.Some? ==>
        && c.store.value.snapshots.Keys <= r.store.value.snapshots.Keys
        && (forall k :: k in r.store.value.snapshots ==>
              (c.nextId <= k < r.nextId) || (k in c.store.value.snapshots && r.store.value.snapshots[k] == c.store.value.snapshots[k]))
        && c.store.value.tables.Keys <= r.store.value.tables.Keys
        && (forall t :: t in c.store.value.tables ==> c.store.value.tables[t] <= r.store.value.tables[t])
        && (forall t :: t in r.store.value.tables && (forall n :: n in names ==> t != HistoryTable(n)) ==>
              t in c.store.value.tables && r.store.value.tables[t] == c.store.value.tables[t]))
  }

  /**
   * Every recorded id lies below `nextId`, so the ids the fold draws are
   * new to the store, as `uuid4()` ids are.
   */
  ghost predicate Fresh<P>(c: Cycle<P>) {
    c.store.Some? ==> forall k :: k in c.store.value.snapshots ==> k < c.nextId
  }

  /** Every record present before is present after, unchanged. */
  ghost predicate KeepsRecords<P>(c: Cycle<P>, r: Cycle<P>)
    requires Grows(c, r)
  {
    c.store.Some? ==>
      forall k :: k in c.store.value.snapshots ==>
        k in r.store.value.snapshots && r.store.value.snapshots[k] == c.store.value.snapshots[k]
  }

  /** Drawing fresh ids, a confined change keeps every old record and stays fresh. */
  lemma FreshConfinedKeeps<P>(c: Cycle<P>, r: Cycle<P>, names: set<string>, now: int)
    requires Grows(c, r) && Confined(c, r, names, now) && Fresh(c)
    ensures Fresh(r) && KeepsRecords(c, r)
  {
  }

  lemma OneSourceConfined<P>(c: Cycle<P>, s: SourceConfig, now: int,
                             fetch: Location -> Fetch<P>, writeFault: string -> Option<string>)
    ensures var r := ProcessSource(c, s, now, fetch, writeFault);
      Grows(c, r) && Confined(c, r, {s.name}, now)
  {
    if Due(c.cursors, s, now) && c.store.Some? && FetchSource(s, fetch).Fetched?
       && writeFault(HistoryTable(s.name)).None? {
      SuccessRecorded(c, s, now, fetch, writeFault);
    }
  }

  /**
   * One source's iteration is confined to its own cursor and history
   * table, and, when the ids it draws are fresh, keeps every old record.
   */
  lemma ProcessSourceConfined<P>(c: Cycle<P>, s: SourceConfig, now: int,
                                 fetch: Location -> Fetch<P>, writeFault: string -> Option<string>)
    ensures var r := ProcessSource(c, s, now, fetch, writeFault);
      Grows(c, r) && Confined(c, r, {s.name}, now)
    ensures var r := ProcessSource(c, s, now, fetch, writeFault);
      Fresh(c) ==> Fresh(r) && KeepsRecords(c, r)
  {
    var r := ProcessSource(c, s, now, fetch, writeFault);
    OneSourceConfined(c, s, now, fetch, writeFault);
    if Fresh(c) {
      FreshConfinedKeeps(c, r, {s.name}, now);
    }
  }

  lemma ConfinedTransitive<P>(a: Cycle<P>, b: Cycle<P>, c: Cycle<P>, n1: set<string>, n2: set<string>, now: int)
    requires Grows(a, b) && Grows(b, c)
    requires Confined(a, b, n1, now) && Confined(b, c, n2, now)
    ensures Grows(a, c) && Confined(a, c, n1 + n2, now)
  {
    if a.store.Some? {
      forall t | t in a.store.value.tables
        ensures a.store.value.tables[t] <= c.store.value.tables[t]
      {
        assert a.store.value.tables[t] <= b.store.value.tables[t];
      }
    }
  }

  /**
   * One tick over all sources: cursors only move to `now`, and only for
   * configured names; new records carry ids drawn in this tick, and when
   * those ids are fresh every existing record is kept; tables only grow,
   * and only history tables of configured sources change.
   */
  lemma {:induction false} ProcessAllConfined<P>(c: Cycle<P>, sources: seq<SourceConfig>, now: int,
                                                 fetch: Location -> Fetch<P>, writeFault: string -> Option<string>)
    ensures var r := ProcessAll(c, sources, now, fetch, writeFault);
      Grows(c, r) && Confined(c, r, Names(sources), now)
    ensures var r := ProcessAll(c, sources, now, fetch, writeFault);
      Fresh(c) ==> Fresh(r) && KeepsRecords(c, r)
    decreases |sources|
  {
    var r := ProcessAll(c, sources, now, fetch, writeFault);
    if |sources| > 0 {
      var c1 := ProcessSource(c, sources[0], now, fetch, writeFault);
      ProcessSourceConfined(c, sources[0], now, fetch, writeFault);
      ProcessAllConfined(c1, sources[1..], now, fetch, writeFault);
      assert Names(sources) == {sources[0].name} + Names(sources[1..]) by {
        assert sources == [sources[0]] + sources[1..];
      }
      ConfinedTransitive(c, c1, ProcessAll(c1, sources[1..], now, fetch, writeFault),
                         {sources[0].name}, Names(sources[1..]), now);
    }
    if Fresh(c) {
      FreshConfinedKeeps(c, r, Names(sources), now);
    }
  }

  /** A tick over a single source is that source's iteration. */
  lemma ProcessAllOne<P>(c: Cycle<P>, s: SourceConfig, now: int,
                         fetch: Location -> Fetch<P>, writeFault: string -> Option<string>)
    ensures ProcessAll(c, [s], now, fetch, writeFault) == ProcessSource(c, s, now, fetch, writeFault)
  {
    assert [s][1..] == [];
  }

  /** Sources are handled strictly in order: a tick over `xs + ys` is `xs`, then `ys`. */
  lemma {:induction false} ProcessAllSplits<P>(c: Cycle<P>, xs: seq<SourceConfig>, ys: seq<SourceConfig>, now: int,
                                               fetch: Location -> Fetch<P>, writeFault: string -> Option<string>)
    ensures ProcessAll(c, xs + ys, now, fetch, writeFault)
         == ProcessAll(ProcessAll(c, xs, now, fetch, writeFault), ys, now, fetch, writeFault)
    decreases |xs|
  {
    if |xs| > 0 {
      assert (xs + ys)[1..] == xs[1..] + ys;
      ProcessAllSplits(ProcessSource(c, xs[0], now, fetch, writeFault), xs[1..], ys, now, fetch, writeFault);
    } else {
      assert xs + ys == ys;
    }
  }

  // ----- the agent -----------------------------------------------------

  datatype IngestionAgent<P> = IngestionAgent(
    base: L.Agent,
    sources: seq<SourceConfig>,
    store: Option<S.Store<Row<P>>>,
    cursors: map<string, int>)

  function NewIngestionAgent<P>(name: string, sources: seq<SourceConfig>): (ag: IngestionAgent<P>)
    ensures ag.base == L.NewAgent(name) && ag.sources == sources
    ensures ag.store == None && ag.cursors == map[]
  {
    IngestionAgent(L.NewAgent(name), sources, None, map[])
  }

  /**
   * `start`. The hook opens the database (`open`: the store found at the
   * configured path, or the exception connecting raised) and keeps it;
   * a raising hook leaves the store as it was.
   */
  function Start<P>(ag: IngestionAgent<P>, open: Result<S.Store<Row<P>>, L.Exc>, now: int): (r: L.Step<IngestionAgent<P>>)
    ensures !L.StartCallsHook(ag.base.state) ==> r == L.Step(ag, L.Returned)
    ensures L.StartCallsHook(ag.base.state) && open.Success? ==>
      r.agent.store == Some(open.value) && r.agent.base.state == L.Running && r.outcome == L.Returned
    ensures L.StartCallsHook(ag.base.state) && open.Failure? ==>
      && r.agent.store == ag.store && r.agent.base.state == L.Failed
      && r.outcome == L.Raised(open.error)
    ensures r.agent.sources == ag.sources && r.agent.cursors == ag.cursors
  {
    if !L.StartCallsHook(ag.base.state) then L.Step(ag, L.Returned)
    else match open
      case Success(db) =>
        var b := L.Start(ag.base, L.Returned, now);
        L.Step(ag.(base := b.agent, store := Some(db)), b.outcome)
      case Failure(e) =>
        var b := L.Start(ag.base, L.Raised(e), now);
        L.Step(ag.(base := b.agent), b.outcome)
  }

  /**
   * `tick`. Outside RUNNING it raises "not running" and nothing runs.
   * In RUNNING the hook folds over the sources; per-source failures are
   * absorbed into records, so the hook returns and the agent stays RUNNING.
   */
  function Tick<P>(ag: IngestionAgent<P>, fetch: Location -> Fetch<P>, writeFault: string -> Option<string>,
                   firstId: nat, tickAt: int, now: int, doneAt: int): (r: L.Step<IngestionAgent<P>>)
    ensures !L.TickCallsHook(ag.base.state) ==>
      r == L.Step(ag, L.Raised(L.NotRunning(ag.base.name, ag.base.state)))
    ensures L.TickCallsHook(ag.base.state) ==>
      && r.outcome == L.Returned
      && r.agent.base.state == L.Running
      && r.agent.base.lastTick == Some(tickAt) && r.agent.base.lastSuccess == Some(doneAt)
      && r.agent.base.error == None
      && r.agent.store.Some? == ag.store.Some?
    ensures L.TickCallsHook(ag.base.state) ==>
      forall n :: n in r.agent.cursors ==>
        r.agent.cursors[n] == now || (n in ag.cursors && r.agent.cursors[n] == ag.cursors[n])
    ensures L.TickCallsHook(ag.base.state) && ag.store.Some? ==>
      && (forall k :: k in ag.store.value.snapshots && k < firstId ==>
            k in r.agent.store.value.snapshots && r.agent.store.value.snapshots[k] == ag.store.value.snapshots[k])
      && (forall t :: t in ag.store.value.tables ==>
            t in r.agent.store.value.tables && ag.store.value.tables[t] <= r.agent.store.value.tables[t])
    ensures L.TickCallsHook(ag.base.state) && ag.store.Some? &&
            (forall k :: k in ag.store.value.snapshots ==> k < firstId) ==>
      forall k :: k in ag.store.value.snapshots ==>
        k in r.agent.store.value.snapshots && r.agent.store.value.snapshots[k] == ag.store.value.snapshots[k]
    ensures r.agent.sources == ag.sources
  {
    if !L.TickCallsHook(ag.base.state) then
      var b := L.Tick(ag.base, L.Returned, tickAt, doneAt);
      L.Step(ag, b.outcome)
    else
      var c := ProcessAll(Cycle(ag.store, ag.cursors, firstId), ag.sources, now, fetch, writeFault);
      ProcessAllConfined(Cycle(ag.store, ag.cursors, firstId), ag.sources, now, fetch, writeFault);
      var b := L.Tick(ag.base, L.Returned, tickAt, doneAt);
      L.Step(ag.(base := b.agent, store := c.store, cursors := c.cursors), b.outcome)
  }

  /** `stop`. The hook drops the store and never raises. */
  function Stop<P>(ag: IngestionAgent<P>, now: int): (r: L.Step<IngestionAgent<P>>)
    ensures !L.StopCallsHook(ag.base.state) ==> r == L.Step(ag, L.Returned)
    ensures L.StopCallsHook(ag.base.state) ==>
      r.agent.store == None && r.agent.base.state == L.Stopped && r.outcome == L.Returned
    ensures r.agent.sources == ag.sources && r.agent.cursors == ag.cursors
  {
    if !L.StopCallsHook(ag.base.state) then L.Step(ag, L.Returned)
    else
      var b := L.Stop(ag.base, L.Returned, now);
      L.Step(ag.(base := b.agent, store := None), b.outcome)
  }

  /** `health`: the base report; the ingestion agent adds no details. */
  function Health<P>(ag: IngestionAgent<P>): (h: L.HealthReport)
    ensures h.ok <==> (ag.base.state == L.Running || ag.base.state == L.Stopped)
    ensures h.details == map[]
  {
    L.Health(ag.base, map[])
  }

  /** Settled, and the store exists exactly while the agent is RUNNING. */
  predicate Inv<P>(ag: IngestionAgent<P>) {
    L.Settled(ag.base.state) && (ag.store.Some? <==> ag.base.state == L.Running)
  }

  /** One public call, with the collaborators' answers it meets. */
  datatype Call<P> =
    | StartCall(open: Result<S.Store<Row<P>>, L.Exc>, now: int)
    | TickCall(fetch: Location -> Fetch<P>, writeFault: string -> Option<string>,
               firstId: nat, tickAt: int, now: int, doneAt: int)
    | StopCall(now: int)

  function Apply<P>(ag: IngestionAgent<P>, c: Call<P>): L.Step<IngestionAgent<P>> {
    match c
    case StartCall(open, now) => Start(ag, open, now)
    case TickCall(f, w, id, t, now, d) => Tick(ag, f, w, id, t, now, d)
    case StopCall(now) => Stop(ag, now)
  }

  function Run<P>(ag: IngestionAgent<P>, calls: seq<Call<P>>): IngestionAgent<P>
    decreases |calls|
  {
    if |calls| == 0 then ag else Run(Apply(ag, calls[0]).agent, calls[1..])
  }

  lemma ApplyKeepsInv<P>(ag: IngestionAgent<P>, c: Call<P>)
    requires Inv(ag)
    ensures Inv(Apply(ag, c).agent)
    ensures Apply(ag, c).agent.base.name == ag.base.name
  {
  }

  /**
   * From a new agent, whatever the driver calls and whatever the
   * collaborators answer: the store exists exactly between a successful
   * start and the next stop, and no call leaves STARTING or STOPPING.
   */
  lemma {:induction false} RunKeepsInv<P>(ag: IngestionAgent<P>, calls: seq<Call<P>>)
    requires Inv(ag)
    ensures Inv(Run(ag, calls))
    ensures Run(ag, calls).base.name == ag.base.name
    decreases |calls|
  {
    if |calls| > 0 {
      ApplyKeepsInv(ag, calls[0]);
      RunKeepsInv(Apply(ag, calls[0]).agent, calls[1..]);
    }
  }

  lemma NewAgentInv<P>(name: string, sources: seq<SourceConfig>)
    ensures Inv(NewIngestionAgent<P>(name, sources))
  {
  }

  /** Per-source failures never escape: a RUNNING agent is RUNNING and healthy after any tick. */
  lemma TickNeverFails<P>(ag: IngestionAgent<P>, fetch: Location -> Fetch<P>, writeFault: string -> Option<string>,
                          firstId: nat, tickAt: int, now: int, doneAt: int)
    requires Inv(ag) && ag.base.state == L.Running
    ensures var r := Tick(ag, fetch, writeFault, firstId, tickAt, now, doneAt);
      r.outcome == L.Returned && Inv(r.agent) && Health(r.agent).ok
  {
  }

  // ----- scenarios -----------------------------------------------------

  /**
   * One file source at interval 0 on a fresh in-memory database: after
   * `start` and a `tick` whose read succeeds, the source has an ok
   * record and its history table holds exactly one row with the payload.
   */
  lemma FileSourceScenario<P>(name: string, src: SourceConfig, raw: RawSnapshot<P>,
                              fetch: Location -> Fetch<P>, writeFault: string -> Option<string>,
                              t0: int, firstId: nat, tickAt: int, now: int, doneAt: int)
    requires src.mode == "file" && Given(src.path) && src.intervalS == 0 && now >= 0
    requires fetch(FileAt(src.path.value)) == Fetched(raw)
    requires writeFault(HistoryTable(src.name)).None?
    ensures var started := Start(NewIngestionAgent<P>(name, [src]), Success(S.Empty()), t0).agent;
      var r := Tick(started, fetch, writeFault, firstId, tickAt, now, doneAt);
      var db := r.agent.store.value;
      && r.outcome == L.Returned
      && r.agent.base.state == L.Running
      && r.agent.store.Some?
      && db.snapshots == map[firstId := S.Snapshot(src.name, true, Some(raw.contentHash), None)]
      && db.tables == map[HistoryTable(src.name) := [Row(raw.raw, now)]]
      && r.agent.cursors == map[src.name := now]
  {
    var started := Start(NewIngestionAgent<P>(name, [src]), Success(S.Empty()), t0).agent;
    var c := Cycle(started.store, started.cursors, firstId);
    assert Due(c.cursors, src, now);
    ProcessAllOne(c, src, now, fetch, writeFault);
    SuccessRecorded(c, src, now, fetch, writeFault);
  }

  /**
   * One file source whose read raises: the tick does not raise, exactly
   * one failure record carrying the message is written, no table is
   * created, and the agent stays RUNNING.
   */
  lemma MissingFileScenario<P>(name: string, src: SourceConfig, message: string,
                               fetch: Location -> Fetch<P>, writeFault: string -> Option<string>,
                               t0: int, firstId: nat, tickAt: int, now: int, doneAt: int)
    requires src.mode == "file" && Given(src.path) && src.intervalS == 0 && now >= 0
    requires fetch(FileAt(src.path.value)) == FetchFailed(message)
    ensures var started := Start(NewIngestionAgent<P>(name, [src]), Success(S.Empty()), t0).agent;
      var r := Tick(started, fetch, writeFault, firstId, tickAt, now, doneAt);
      && r.outcome == L.Returned
      && r.agent.base.state == L.Running
      && r.agent.store.value.snapshots == map[firstId := S.Snapshot(src.name, false, None, Some(message))]
      && r.agent.store.value.tables == map[]
      && r.agent.cursors == map[]
  {
    var started := Start(NewIngestionAgent<P>(name, [src]), Success(S.Empty()), t0).agent;
    var c := Cycle(started.store, started.cursors, firstId);
    assert Due(c.cursors, src, now);
    ProcessAllOne(c, src, now, fetch, writeFault);
    FetchFailureRecorded(c, src, now, fetch, writeFault);
  }

  /**
   * Two due sources, the first failing and the second succeeding: one
   * failure record and one success record, the second source's row
   * persisted, and the first source's cursor unchanged.
   */
  lemma FailureIsIsolated<P>(c: Cycle<P>, a: SourceConfig, b: SourceConfig, now: int,
                             fetch: Location -> Fetch<P>, writeFault: string -> Option<string>)
    requires a.name != b.name && c.store.Some?
    requires Due(c.cursors, a, now) && Due(c.cursors, b, now)
    requires FetchSource(a, fetch).FetchFailed?
    requires FetchSource(b, fetch).Fetched? && writeFault(HistoryTable(b.name)).None?
    ensures var r := ProcessAll(c, [a, b], now, fetch, writeFault);
      && r.store.Some?
      && var db := r.store.value;
      && c.nextId in db.snapshots && c.nextId + 1 in db.snapshots
      && db.snapshots[c.nextId] == S.Snapshot(a.name, false, None, Some(FetchSource(a, fetch).message))
      && db.snapshots[c.nextId + 1] == S.Snapshot(b.name, true, Some(FetchSource(b, fetch).snap.contentHash), None)
      && HistoryTable(b.name) in db.tables
      && Row(FetchSource(b, fetch).snap.raw, now) in db.tables[HistoryTable(b.name)]
      && LastFetch(r.cursors, a.name) == LastFetch(c.cursors, a.name)
      && LastFetch(r.cursors, b.name) == now
  {
    var c1 := ProcessSource(c, a, now, fetch, writeFault);
    FetchFailureRecorded(c, a, now, fetch, writeFault);
    assert Due(c1.cursors, b, now);
    var r := ProcessSource(c1, b, now, fetch, writeFault);
    SuccessRecorded(c1, b, now, fetch, writeFault);
    assert [a, b][1..] == [b];
    assert ProcessAll(c, [a, b], now, fetch, writeFault) == ProcessAll(c1, [b], now, fetch, writeFault);
    ProcessAllOne(c1, b, now, fetch, writeFault);
    var t := HistoryTable(b.name);
    var rows := r.store.value.tables[t];
    assert rows[|rows| - 1] == Row(FetchSource(b, fetch).snap.raw, now);
  }
}

=== FILE: lifecycle.dfy ===
/**
 * The agent lifecycle of `agents/base.py`: the six states, the error
 * bookkeeping of `start`, `tick` and `stop`, and the `health` projection.
 *
 * An agent is an immutable record; every public operation is a function
 * from the record, the outcome of the subclass hook it would invoke, and
 * the clock readings it would take, to the next record and the outcome
 * the caller observes (returned normally, or raised an exception).
 * Whether an operation invokes its hook at all depends only on the state
 * (`StartCallsHook`, `TickCallsHook`, `StopCallsHook`); a concrete agent
 * runs its own hook exactly when those predicates hold.
 */
module Lifecycle {
  import opened Wrappers
  import opened Text

  datatype AgentState = New | Starting | Running | Stopping | Stopped | Failed

  /** The string value of each `AgentState` member. */
  function StateValue(s: AgentState): string {
    match s
    case New => "new"
    case Starting => "starting"
    case Running => "running"
    case Stopping => "stopping"
    case Stopped => "stopped"
    case Failed => "failed"
  }

  /** An exception: its class name and its `str()` text. */
  datatype Exc = Exc(kind: string, text: string)

  /**
   * How a hook or a public operation ends: it returns, or it raises an
   * `Exception`. A `BaseException` that is not an `Exception` passes the
   * lifecycle's handlers untouched and is not modelled.
   */
  datatype Outcome = Returned | Raised(exc: Exc)

  /** One value of the opaque `details` mapping of a health report. */
  datatype Detail = DInt(i: int) | DReal(r: real) | DBool(b: bool) | DText(t: string)

  datatype HealthReport = HealthReport(
    name: string,
    state: AgentState,
    ok: bool,
    lastTick: Option<int>,
    lastSuccess: Option<int>,
    lastErrorAt: Option<int>,
    error: Option<string>,
    details: map<string, Detail>)

  /** The fields `Agent.__init__` sets up; timestamps are clock readings. */
  datatype Agent = Agent(
    name: string,
    state: AgentState,
    lastTick: Option<int>,
    lastSuccess: Option<int>,
    lastErrorAt: Option<int>,
    error: Option<string>)

  /** The agent after an operation, and what the caller observes. */
  datatype Step<A> = Step(agent: A, outcome: Outcome)

  function NewAgent(name: string): (a: Agent)
    ensures a.name == name && a.state == New
    ensures a.lastTick == None && a.lastSuccess == None && a.lastErrorAt == None && a.error == None
  {
    Agent(name, New, None, None, None, None)
  }

  /** Neither of the transient states a public operation passes through. */
  predicate Settled(s: AgentState) {
    s != Starting && s != Stopping
  }

  /** `start` runs its hook unless the agent is already RUNNING or STARTING. */
  predicate StartCallsHook(s: AgentState)
    ensures StartCallsHook(s) <==> s == New || s == Stopping || s == Stopped || s == Failed
  {
    s != Running && s != Starting
  }

  /** `tick` runs its hook only in RUNNING, the one state where `start` does not. */
  predicate TickCallsHook(s: AgentState)
    ensures TickCallsHook(s) ==> !StartCallsHook(s) && StopCallsHook(s)
    ensures TickCallsHook(s) <==> s != New && s != Starting && s != Stopping && s != Stopped && s != Failed
  {
    s == Running
  }

  /** `stop` runs its hook unless the agent is already STOPPING or STOPPED, so from NEW too. */
  predicate StopCallsHook(s: AgentState)
    ensures StopCallsHook(s) <==> s == New || s == Starting || s == Running || s == Failed
  {
    s != Stopping && s != Stopped
  }

  /** The text `_mark_failed` records: the class name, a colon, the message. */
  function Describe(e: Exc): (d: string)
    ensures e.kind + ": " <= d
    ensures |e.text| <= |d| && d[|d| - |e.text|..] == e.text
    ensures |d| == |e.kind| + 2 + |e.text|
  {
    e.kind + ": " + e.text
  }

  /** The recorded cause names both the exception class and its message. */
  lemma DescribeMentions(e: Exc)
    ensures Contains(Describe(e), e.kind) && Contains(Describe(e), e.text)
  {
    ContainsSuffix(e.kind + ": ", e.text);
    assert Describe(e)[0..] == Describe(e);
  }

  /** The quote Python's repr() puts around a string. */
  function QuoteMark(t: string): string {
    if '\'' in t && '"' !in t then "\"" else "'"
  }

  /** `repr(exc)` for an exception built from one string argument. */
  function Repr(e: Exc): (r: string)
    ensures e.kind + "(" <= r
    ensures Contains(r, e.text)
  {
    var mark := QuoteMark(e.text);
    ContainsMiddle(e.kind + "(" + mark, e.text, mark + ")");
    e.kind + "(" + mark + e.text + (mark + ")")
  }

  const StopFailedPrefix: string := "stop() failed: "

  /** The error text `stop` records when its hook raises: a prefix, then the repr. */
  function StopFailure(e: Exc): (d: string)
    ensures StopFailedPrefix <= d
    ensures d[|StopFailedPrefix|..] == Repr(e)
  {
    StopFailedPrefix + Repr(e)
  }

  /** The `RuntimeError` that `tick` raises outside RUNNING. */
  function NotRunning(name: string, s: AgentState): (e: Exc)
    ensures e.kind == "RuntimeError"
    ensures Contains(e.text, "not running")
  {
    var pre := "Agent '" + name + "' is ";
    var post := " (state=" + StateValue(s) + "); cannot tick().";
    ContainsMiddle(pre, "not running", post);
    Exc("RuntimeError", pre + "not running" + post)
  }

  /** `_mark_failed`: FAILED, error time and described cause recorded. */
  function MarkFailed(a: Agent, e: Exc, now: int): (r: Agent)
    ensures r.state == Failed && r.lastErrorAt == Some(now) && r.error == Some(Describe(e))
    ensures r.name == a.name && r.lastTick == a.lastTick && r.lastSuccess == a.lastSuccess
  {
    a.(state := Failed, lastErrorAt := Some(now), error := Some(Describe(e)))
  }

  /**
   * `start`: a no-op in RUNNING or STARTING; otherwise the hook's outcome
   * decides between RUNNING with the error text cleared (but not its
   * timestamp) and FAILED with the hook's exception re-raised. `now` is
   * the clock reading `_mark_failed` takes.
   */
  function Start(a: Agent, hook: Outcome, now: int): (r: Step<Agent>)
    ensures !StartCallsHook(a.state) ==> r == Step(a, Returned)
    ensures StartCallsHook(a.state) && hook.Returned? ==>
      && r.outcome == Returned
      && r.agent.state == Running && r.agent.error == None
      && r.agent.lastErrorAt == a.lastErrorAt
      && r.agent.lastTick == a.lastTick && r.agent.lastSuccess == a.lastSuccess
    ensures StartCallsHook(a.state) && hook.Raised? ==>
      && r.outcome == hook
      && r.agent.state == Failed
      && r.agent.lastErrorAt == Some(now)
      && r.agent.error == Some(Describe(hook.exc))
      && r.agent.lastTick == a.lastTick && r.agent.lastSuccess == a.lastSuccess
    ensures r.agent.name == a.name
  {
    if !StartCallsHook(a.state) then Step(a, Returned)
    else match hook
      case Returned => Step(a.(state := Running, error := None), Returned)
      case Raised(e) => Step(MarkFailed(a, e, now), Raised(e))
  }

  /**
   * `tick`: outside RUNNING it raises "not running" and changes nothing.
   * In RUNNING it records `tickAt` as the last tick before the hook runs;
   * then either records `doneAt` as the last success and clears the error
   * text, or marks the agent FAILED at `doneAt` and re-raises.
   */
  function Tick(a: Agent, hook: Outcome, tickAt: int, doneAt: int): (r: Step<Agent>)
    ensures !TickCallsHook(a.state) ==> r == Step(a, Raised(NotRunning(a.name, a.state)))
    ensures TickCallsHook(a.state) ==> r.agent.lastTick == Some(tickAt)
    ensures TickCallsHook(a.state) && hook.Returned? ==>
      && r.outcome == Returned
      && r.agent.state == Running
      && r.agent.lastSuccess == Some(doneAt) && r.agent.error == None
      && r.agent.lastErrorAt == a.lastErrorAt
    ensures TickCallsHook(a.state) && hook.Raised? ==>
      && r.outcome == hook
      && r.agent.state == Failed
      && r.agent.lastErrorAt == Some(doneAt)
      && r.agent.error == Some(Describe(hook.exc))
      && r.agent.lastSuccess == a.lastSuccess
    ensures r.agent.name == a.name
  {
    if !TickCallsHook(a.state) then Step(a, Raised(NotRunning(a.name, a.state)))
    else
      var ticked := a.(lastTick := Some(tickAt));
      match hook
      case Returned => Step(ticked.(lastSuccess := Some(doneAt), error := None), Returned)
      case Raised(e) => Step(MarkFailed(ticked, e, doneAt), Raised(e))
  }

  /**
   * `stop`: a no-op in STOPPING or STOPPED; from every other state it ends
   * STOPPED. A returning hook clears nothing; a raising one records the
   * error time and a "stop() failed: ..." text, and is re-raised.
   */
  function Stop(a: Agent, hook: Outcome, now: int): (r: Step<Agent>)
    ensures !StopCallsHook(a.state) ==> r == Step(a, Returned)
    ensures StopCallsHook(a.state) ==> r.agent.state == Stopped && r.outcome == hook
    ensures StopCallsHook(a.state) && hook.Returned? ==>
      r.agent.error == a.error && r.agent.lastErrorAt == a.lastErrorAt
    ensures StopCallsHook(a.state) && hook.Raised? ==>
      r.agent.lastErrorAt == Some(now) && r.agent.error == Some(StopFailure(hook.exc))
    ensures r.agent.name == a.name
    ensures r.agent.lastTick == a.lastTick && r.agent.lastSuccess == a.lastSuccess
  {
    if !StopCallsHook(a.state) then Step(a, Returned)
    else match hook
      case Returned => Step(a.(state := Stopped), Returned)
      case Raised(e) => Step(a.(state := Stopped, lastErrorAt := Some(now), error := Some(StopFailure(e))), Raised(e))
  }

  /** `health`: `ok` holds exactly in RUNNING and STOPPED; the rest is copied. */
  function Health(a: Agent, details: map<string, Detail>): (h: HealthReport)
    ensures h.ok <==> (a.state == Running || a.state == Stopped)
    ensures a.state == Failed ==> !h.ok
    ensures h.name == a.name && h.state == a.state && h.details == details
    ensures h.lastTick == a.lastTick && h.lastSuccess == a.lastSuccess
    ensures h.lastErrorAt == a.lastErrorAt && h.error == a.error
  {
    var ok := a.state == Running || a.state == Stopped;
    var ok' := if a.state == Failed then false else ok;
    HealthReport(a.name, a.state, ok', a.lastTick, a.lastSuccess, a.lastErrorAt, a.error, details)
  }

  // ----- sequences of calls --------------------------------------------

  /** One public call, with the hook outcome and clock readings it meets. */
  datatype Call =
    | StartCall(hook: Outcome, now: int)
    | TickCall(hook: Outcome, tickAt: int, doneAt: int)
    | StopCall(hook: Outcome, now: int)

  function Apply(a: Agent, c: Call): Step<Agent> {
    match c
    case StartCall(h, now) => Start(a, h, now)
    case TickCall(h, t, d) => Tick(a, h, t, d)
    case StopCall(h, now) => Stop(a, h, now)
  }

  /** The agent after a driver makes `calls` in order, catching whatever is raised. */
  function Run(a: Agent, calls: seq<Call>): Agent
    decreases |calls|
  {
    if |calls| == 0 then a else Run(Apply(a, calls[0]).agent, calls[1..])
  }

  /** Every public call leaves a settled agent settled and keeps its name. */
  lemma ApplyKeepsSettled(a: Agent, c: Call)
    requires Settled(a.state)
    ensures Settled(Apply(a, c).agent.state)
    ensures Apply(a, c).agent.name == a.name
  {
  }

  /**
   * Whatever hooks do and whatever the driver calls, an agent seen between
   * calls is never STARTING or STOPPING, and its name never changes.
   */
  lemma {:induction false} RunKeepsSettled(a: Agent, calls: seq<Call>)
    requires Settled(a.state)
    ensures Settled(Run(a, calls).state)
    ensures Run(a, calls).name == a.name
    decreases |calls|
  {
    if |calls| > 0 {
      ApplyKeepsSettled(a, calls[0]);
      RunKeepsSettled(Apply(a, calls[0]).agent, calls[1..]);
    }
  }

  /** A fresh agent is settled, so every agent a driver can observe is. */
  lemma ReachableIsSettled(name: string, calls: seq<Call>)
    ensures Settled(Run(NewAgent(name), calls).state)
    ensures Run(NewAgent(name), calls).name == name
  {
    RunKeepsSettled(NewAgent(name), calls);
  }

  /** Only a RUNNING agent ticks: after `stop`, `tick` raises "not running". */
  lemma TickAfterStopRaises(a: Agent, stopHook: Outcome, now: int, tickHook: Outcome, t: int, d: int)
    ensures var s := Stop(a, stopHook, now).agent;
      && s.state != Running
      && Tick(s, tickHook, t, d).outcome.Raised?
      && Tick(s, tickHook, t, d).outcome.exc.kind == "RuntimeError"
      && Tick(s, tickHook, t, d).agent == s
  {
  }

  /** A second `start` right after a successful one does not run the hook again. */
  lemma StartIsIdempotent(a: Agent, h1: Outcome, n1: int, h2: Outcome, n2: int)
    requires Start(a, h1, n1).outcome == Returned
    ensures var s := Start(a, h1, n1).agent;
      !StartCallsHook(s.state) && Start(s, h2, n2) == Step(s, Returned)
  {
  }

  /** A second `stop` does not run the hook again, even if the first one raised. */
  lemma StopIsIdempotent(a: Agent, h1: Outcome, n1: int, h2: Outcome, n2: int)
    ensures var s := Stop(a, h1, n1).agent;
      !StopCallsHook(s.state) && Stop(s, h2, n2) == Step(s, Returned)
  {
  }

  /** FAILED is not terminal: a returning start hook brings the agent back to RUNNING. */
  lemma FailedCanRestart(a: Agent, now: int)
    requires a.state == Failed
    ensures Start(a, Returned, now).agent.state == Running
    ensures Health(Start(a, Returned, now).agent, map[]).ok
  {
  }

  /**
   * `stop` always leaves a healthy report, even when its hook raised,
   * while any raising start or tick hook leaves an unhealthy one.
   */
  lemma HealthAfterOperations(a: Agent, e: Exc, now: int, t: int, d: int)
    ensures StopCallsHook(a.state) ==> Health(Stop(a, Raised(e), now).agent, map[]).ok
    ensures StartCallsHook(a.state) ==> !Health(Start(a, Raised(e), now).agent, map[]).ok
    ensures TickCallsHook(a.state) ==> !Health(Tick(a, Raised(e), t, d).agent, map[]).ok
  {
  }

  /** With a clock that does not run backwards, a successful tick ends no earlier than it began. */
  lemma TickSuccessAfterTick(a: Agent, tickAt: int, doneAt: int)
    requires a.state == Running && tickAt <= doneAt
    ensures var r := Tick(a, Returned, tickAt, doneAt).agent;
      r.lastTick.Some? && r.lastSuccess.Some? && r.lastTick.value <= r.lastSuccess.value
  {
  }

  /**
   * The error text survives a clean stop: after a tick hook raises and the
   * stop hook returns, the agent is STOPPED and healthy yet still reports
   * the tick's error.
   */
  lemma ErrorSurvivesCleanStop(a: Agent, e: Exc, t: int, d: int, now: int)
    requires a.state == Running
    ensures var f := Tick(a, Raised(e), t, d).agent;
      var s := Stop(f, Returned, now).agent;
      s.state == Stopped && Health(s, map[]).ok && s.error == Some(Describe(e))
  {
  }
}

=== FILE: store.dfy ===
/**
 * The storage sink of `common/storage/duckdb_store.py`, without SQL: data
 * tables are a map from table name to the rows inserted into it, in
 * order, and the `snapshots` metadata table is a map keyed by snapshot id
 * (its PRIMARY KEY), updated by insert-or-replace.
 */
module Store {
  import opened Wrappers

  /** Snapshot ids; the agent draws them fresh for every record. */
  type SnapshotId = nat

  /** One row of the `snapshots` table, apart from its timestamp column. */
  datatype Snapshot = Snapshot(source: string, ok: bool, contentHash: Option<string>, error: Option<string>)

  datatype Store<R> = Store(tables: map<string, seq<R>>, snapshots: map<SnapshotId, Snapshot>)

  /** A freshly created in-memory database: only the empty snapshots table. */
  function Empty<R>(): (st: Store<R>)
    ensures st.tables == map[] && st.snapshots == map[]
  {
    Store(map[], map[])
  }

  /** The `INSERT` loop: one row appended per input row, in input order. */
  function InsertRows<R>(table: seq<R>, rows: seq<R>): (r: seq<R>)
    ensures |r| == |table| + |rows|
    ensures r[..|table|] == table
    ensures forall i :: 0 <= i < |rows| ==> r[|table| + i] == rows[i]
    decreases |rows|
  {
    if |rows| == 0 then table
    else InsertRows(table + [rows[0]], rows[1..])
  }

  /** Appending by single inserts is appending the whole sequence. */
  lemma InsertRowsAppends<R>(table: seq<R>, rows: seq<R>)
    ensures InsertRows(table, rows) == table + rows
  {
    var r := InsertRows(table, rows);
    assert forall i :: 0 <= i < |r| ==> r[i] == (table + rows)[i] by {
      forall i | 0 <= i < |r|
        ensures r[i] == (table + rows)[i]
      {
        if i < |table| {
          assert r[..|table|][i] == table[i];
        } else {
          assert r[|table| + (i - |table|)] == rows[i - |table|];
        }
      }
    }
  }

  /**
   * `write_table`: an empty row list changes nothing (the table is not even
   * created); otherwise `overwrite` drops the table first, the table is
   * created if missing, and the rows are inserted in order. No other table
   * and no snapshot record is touched.
   */
  function WriteTable<R>(st: Store<R>, name: string, rows: seq<R>, overwrite: bool): (r: Store<R>)
    ensures |rows| == 0 ==> r == st
    ensures |rows| > 0 && (overwrite || name !in st.tables) ==>
      name in r.tables && r.tables[name] == rows
    ensures |rows| > 0 && !overwrite && name in st.tables ==>
      name in r.tables && r.tables[name] == st.tables[name] + rows
    ensures r.tables.Keys == st.tables.Keys + (if |rows| > 0 then {name} else {})
    ensures forall t :: t in st.tables && t != name ==> r.tables[t] == st.tables[t]
    ensures r.snapshots == st.snapshots
  {
    if |rows| == 0 then st
    else
      var kept := if overwrite || name !in st.tables then [] else st.tables[name];
      InsertRowsAppends(kept, rows);
      st.(tables := st.tables[name := InsertRows(kept, rows)])
  }

  /**
   * `record_snapshot`: the record under `id` becomes exactly the given
   * fields, whether or not the id was present; nothing else changes.
   */
  function RecordSnapshot<R>(st: Store<R>, id: SnapshotId, source: string, ok: bool,
                             contentHash: Option<string>, error: Option<string>): (r: Store<R>)
    ensures id in r.snapshots && r.snapshots[id] == Snapshot(source, ok, contentHash, error)
    ensures r.snapshots.Keys == st.snapshots.Keys + {id}
    ensures forall k :: k in st.snapshots && k != id ==> r.snapshots[k] == st.snapshots[k]
    ensures r.tables == st.tables
  {
    st.(snapshots := st.snapshots[id := Snapshot(source, ok, contentHash, error)])
  }

  /** Two appends to one table are one append of both row lists. */
  lemma AppendsCompose<R>(st: Store<R>, name: string, xs: seq<R>, ys: seq<R>)
    ensures WriteTable(WriteTable(st, name, xs, false), name, ys, false) == WriteTable(st, name, xs + ys, false)
  {
    if |xs| == 0 {
      assert xs + ys == ys;
    } else if |ys| == 0 {
      assert xs + ys == xs;
    } else {
      var kept := if name in st.tables then st.tables[name] else [];
      var once := WriteTable(st, name, xs, false);
      assert once.tables[name] == kept + xs;
      assert kept + xs + ys == kept + (xs + ys);
      assert WriteTable(once, name, ys, false).tables == st.tables[name := kept + (xs + ys)];
    }
  }

  /** A non-empty overwrite forgets everything written to the table before. */
  lemma OverwriteForgets<R>(st: Store<R>, name: string, xs: seq<R>, o: bool, ys: seq<R>)
    requires |ys| > 0
    ensures WriteTable(WriteTable(st, name, xs, o), name, ys, true) == WriteTable(st, name, ys, true)
  {
  }

  /** Writes to different tables do not interfere. */
  lemma WritesCommute<R>(st: Store<R>, a: string, xs: seq<R>, oa: bool, b: string, ys: seq<R>, ob: bool)
    requires a != b
    ensures WriteTable(WriteTable(st, a, xs, oa), b, ys, ob) == WriteTable(WriteTable(st, b, ys, ob), a, xs, oa)
  {
  }

  /** Upsert: of two records under one id, the latest wins and the first leaves no trace. */
  lemma LatestRecordWins<R>(st: Store<R>, id: SnapshotId,
                            s1: string, ok1: bool, h1: Option<string>, e1: Option<string>,
                            s2: string, ok2: bool, h2: Option<string>, e2: Option<string>)
    ensures RecordSnapshot(RecordSnapshot(st, id, s1, ok1, h1, e1), id, s2, ok2, h2, e2)
         == RecordSnapshot(st, id, s2, ok2, h2, e2)
  {
  }

  /** Recording metadata and writing rows touch disjoint parts of the store. */
  lemma RecordAndWriteCommute<R>(st: Store<R>, id: SnapshotId, s: string, ok: bool, h: Option<string>,
                                 e: Option<string>, name: string, rows: seq<R>, o: bool)
    ensures WriteTable(RecordSnapshot(st, id, s, ok, h, e), name, rows, o)
         == RecordSnapshot(WriteTable(st, name, rows, o), id, s, ok, h, e)
  {
  }
}

=== FILE: wrappers.dfy ===
/** Small value types shared by every module of the model. */
module Wrappers {

  /** A value that may be absent; Python's `Optional[T]`. */
  datatype Option<+T> = None | Some(value: T)

  /** Either a value or an error; models a call that returns or raises. */
  datatype Result<+T, +E> = Success(value: T) | Failure(error: E)
}

/** Facts about strings used to state what error messages mention. */
module Text {

  /** `part` occurs somewhere inside `s` (Python's `part in s`). */
  predicate Contains(s: string, part: string) {
    exists i :: 0 <= i <= |s| && part <= s[i..]
  }

  /** A string contains whatever sits between a known prefix and suffix. */
  lemma ContainsMiddle(x: string, part: string, y: string)
    ensures Contains(x + part + y, part)
  {
    var s := x + part + y;
    assert s[|x|..] == part + y;
    assert part <= s[|x|..];
  }

  /** A string contains each of its suffixes. */
  lemma ContainsSuffix(x: string, part: string)
    ensures Contains(x + part, part)
  {
    assert (x + part)[|x|..] == part;
  }
}
